=== FILE: README.md ===
# MovieWatchlist data-loading layer, modelled in Dafny

MovieWatchlist's front ends load catalog data from a remote movie database:
now playing, upcoming, trending, search results, movie details, cast and crew,
and trailers. This project models the two parts of that data-loading layer and
proves properties about them.

- **The fetch adapter** (`fetchAPI` and `fetchAPIList`). It sends one
  authenticated GET and maps the outcome to a value or null. The HTTP exchange
  is an abstract `Http.Response`: a transport error, or a received status with
  a decoded body. A decoded body is malformed, the JSON literal `null`, or a
  value. The adapter is a total function into `Option`, so "never throws" is
  built into the model.
- **The catalog loaders** (`getMovie`, `getCastAndCrew`, `getNowPlayingMovies`,
  `getUpcomingMovies`, `getSearchResults`, `getTrendingMovies` and
  `getMovieTrailer`). Each loader is a base-URL guard, a URL template, a call
  to the adapter and a transform. The network is a parameter
  (`Loaders.Network`): a function from the request sent to the response
  observed. Every loader reports the requests it sent, so "returns null without
  fetching" means "returns null with an empty request list".
- **Memoisation by React's `cache`** is modelled as an explicit memo map.
  The map is keyed by operation and arguments and lives in a
  `Loaders.Context`, which holds one server request scope (`Memo`). A call
  made outside a server request is memoised by nothing; it corresponds to a
  fresh context per call.

Modules: `Wrappers` (Option), `Types` (Movie, Genre, CastAndCrew, Credits,
Video), `Http`, `FetchApis`, `Urls`, `Seqs` (order-preserving filter),
`StableSort`, `Upcoming`, `Trailer`, `Memo` and `Loaders`.

Three behaviours of the code are easy to misread. The model follows the code:

- `getMovieTrailer` has no base-URL guard. With the base URL unset it still
  calls fetch, with a URL that begins with the text "undefined". Whether a
  request then leaves the machine is the runtime's business: the network
  parameter may answer such a URL with a transport error.
- The doc comment on `getMovieTrailer` says it prefers trailers and falls back
  to teasers. The code does not do this. It takes the first video in list
  order that is a trailer or a teaser, so an earlier teaser beats a later
  trailer.
- `!BASE_URL` is true for an unset base URL and also for an empty one. Both
  short-circuit.

## Model

| member | source | states |
|---|---|---|
| FetchApis.ApiRequest | client/src/utils/fetch-apis.ts:9-15 | every adapter request is a GET to the given URL with `accept: application/json`; the Authorization header carries the API key, or the empty string when the key is unset |
| FetchApis.Classify | client/src/utils/fetch-apis.ts:17-32 | the failure reason the adapter logs: a transport failure exactly when the fetch rejects, a status failure (with its code) exactly when a response arrives that is not ok, a decode failure exactly when an ok body does not parse |
| FetchApis.FetchApi | client/src/utils/fetch-apis.ts:8-33 | a response that is not ok, a transport error, a malformed body or a null body all give null; an ok response with a decoded body gives that body unchanged |
| FetchApis.FetchApiList | client/src/utils/fetch-apis.ts:40-67 | failures give null, never a partial body; an ok envelope gives exactly its `results`, or the empty sequence (not null) when `results` is absent; a JSON null body gives null because reading `results` throws and the throw is caught |
| Urls.Fill | movie-app-frontend/src/data/loaders.ts:15-153 | a URL is the fixed prefix, the argument inserted verbatim and unencoded at a known offset, and the fixed suffix |
| Urls.Match | movie-app-frontend/src/data/loaders.ts:15-153 | not a model of source code (the source never parses a URL): the inverse of template filling that `MatchFill` and `FillMatch` use; its own contract only says the argument it yields is the URL's length less the fixed parts |
| Urls.MatchFill | movie-app-frontend/src/data/loaders.ts:15-153 | reading the argument back from a filled URL returns exactly the region, id or term that was inserted |
| Urls.FillMatch | movie-app-frontend/src/data/loaders.ts:15-153 | any URL the template matches is the URL filled from the argument it yields |
| Urls.FillInjective | movie-app-frontend/src/data/loaders.ts:15-153 | two arguments that give the same URL are equal |
| Urls.MovieUrl | movie-app-frontend/src/data/loaders.ts:15 | the movie URL for an id is the base, `/movie/`, the id and `?language=en-US` |
| Urls.CreditsUrl | movie-app-frontend/src/data/loaders.ts:34 | the credits URL for an id is the base, `/movie/`, the id and `/credits?language=en-US` |
| Urls.NowPlayingUrl | movie-app-frontend/src/data/loaders.ts:61 | the now-playing URL ends with `region=` followed by the raw region |
| Urls.UpcomingUrl | movie-app-frontend/src/data/loaders.ts:80 | the upcoming URL ends with `region=` followed by the raw region |
| Urls.SearchUrl | movie-app-frontend/src/data/loaders.ts:121 | the search URL carries the raw term after `query=`, then `&include_adult=false&language=en-US&page=1` |
| Urls.TrendingUrl | movie-app-frontend/src/data/loaders.ts:141 | the trending URL is the base followed by `/trending/movie/week?language=en-US` |
| Urls.VideosUrl | movie-app-frontend/src/data/loaders.ts:153 | the videos URL for a movie id is the base text, `/movie/`, the id and `/videos?language=en-US` |
| Urls.BaseText | movie-app-frontend/src/data/loaders.ts:153 | the base URL interpolated into a template literal: the configured text, or "undefined" when unset |
| Loaders.HasBase | movie-app-frontend/src/data/loaders.ts:11 | `!BASE_URL` is false: the base URL is set and is not the empty string |
| Loaders.RequestFor | movie-app-frontend/src/data/loaders.ts:153-160 | every loader's request is a GET to the endpoint URL filled with its argument, with `accept: application/json` and an Authorization header carrying the API key, or the empty string when the key is unset |
| Loaders.GetMovie | movie-app-frontend/src/data/loaders.ts:10-24 | without a base URL: null and no request; otherwise exactly the one authenticated JSON GET (`RequestFor`) to `/movie/{id}?language=en-US`, whose response the adapter maps to the movie or null |
| Loaders.GetCastAndCrew | movie-app-frontend/src/data/loaders.ts:26-48 | without a base URL: null and no request; otherwise exactly the one authenticated JSON GET (`RequestFor`) to `/movie/{id}/credits?language=en-US`, whose response gives the credits or null |
| Loaders.GetNowPlayingMovies | movie-app-frontend/src/data/loaders.ts:55-65 | without a base URL: null and no request; otherwise exactly the one authenticated JSON GET (`RequestFor`) to the now-playing URL with the region inserted raw, and the list adapter's result untransformed |
| Loaders.GetUpcomingMovies | movie-app-frontend/src/data/loaders.ts:73-108 | without a base URL: null and no request; otherwise exactly the one authenticated JSON GET (`RequestFor`) to the upcoming URL; a failed list fetch gives null, never an empty list; a successful one gives exactly `UpcomingMovies` of the fetched list with tomorrow computed by `StartOfNextDay` from the call's clock, so every returned movie has a release date on or after the start of tomorrow (hence strictly after now), and the result is sorted and a permutation of the filtered entries |
| Loaders.GetSearchResults | movie-app-frontend/src/data/loaders.ts:115-130 | without a base URL: null and no request; otherwise exactly the one authenticated JSON GET (`RequestFor`) to the search URL with the term inserted raw, and the API's matches untransformed |
| Loaders.GetTrendingMovies | movie-app-frontend/src/data/loaders.ts:136-144 | without a base URL: null and no request; otherwise exactly the one authenticated JSON GET (`RequestFor`) to the weekly trending list, untransformed |
| Loaders.GetMovieTrailer | movie-app-frontend/src/data/loaders.ts:150-188 | always exactly one request, with no base-URL guard: a GET to the videos URL with `accept: application/json` and the key (or "") as Authorization, as the inline fetch sets them; a response that is not ok gives null; an ok response whose body is malformed or JSON `null` gives null (the throw is caught); a missing `results` gives null; whenever the list adapter yields videos, the result is the first-match trailer key of those videos, never empty |
| Loaders.Load | movie-app-frontend/src/data/loaders.ts:10-150 | every loader's answer has the shape its operation declares, and no loader sends more than one request; a configured loader, and the trailer lookup always, sends exactly one |
| Loaders.UnconfiguredLoadersSendNothing | movie-app-frontend/src/data/loaders.ts:11-14 | without a base URL, the six guarded loaders (lines 11-14, 30-33, 57-60, 75-78, 117-120 and 137-140) return null and send no request; the trailer lookup still calls fetch once |
| Loaders.ConfiguredLoadersSendOne | movie-app-frontend/src/data/loaders.ts:61-62 | with a base URL, every loader sends exactly one request |
| Loaders.EmptySearchStillFetches | movie-app-frontend/src/data/loaders.ts:115-122 | an empty search term is not short-circuited: the request is sent with the empty term |
| Loaders.DistinctArgumentsDistinctUrls | movie-app-frontend/src/data/loaders.ts:34 | on one endpoint, distinct arguments give distinct URL strings passed to fetch |
| Loaders.CachedLoad | movie-app-frontend/src/data/loaders.ts:10-188 | within one server request scope, a memoised call answers a query already in the context from the memo with no request; otherwise the answer and requests are exactly the loader's, and the memo gains that answer (null included) under the query; the memo stays well-formed |
| Loaders.RepeatedLoadIsMemoised | movie-app-frontend/src/data/loaders.ts:10-188 | within one server request scope, a second call with identical arguments returns the first call's value with no second fetch, whatever the network or clock now say |
| Loaders.RenderPass | movie-app-frontend/src/data/loaders.ts:10-188 | in one render pass, each answer is the final memo's entry for its query, so equal queries get equal answers, and each answer fits its query's kind; the memo holds exactly the earlier entries, with their values unchanged, plus the queries issued, each holding its loader's answer; no more requests are sent than queries newly memoised |
| Loaders.RenderPassSends | movie-app-frontend/src/data/loaders.ts:10-188 | every newly memoised query's loader request is among those a pass sends, and every request sent is the loader request of a query issued in the pass and not memoised before it, so nothing else goes out; with a base URL configured exactly one request is sent per newly memoised query |
| Loaders.UnconfiguredPassFetchesOnlyTrailers | movie-app-frontend/src/data/loaders.ts:10-188 | without a base URL, every request a render pass sends belongs to a trailer lookup issued in the pass and not memoised before it |
| Loaders.FreshPassFetchesEachQueryOnce | movie-app-frontend/src/data/loaders.ts:10-188 | a pass that starts from a fresh context sends at most one request per distinct query, and exactly one per distinct query when the base URL is configured |
| Memo.Call | movie-app-frontend/src/data/loaders.ts:10-188 | memoisation by argument: a hit returns the stored value and runs nothing; a miss runs the loader and stores its result, null included |
| Memo.RunPass | movie-app-frontend/src/data/loaders.ts:10-188 | successive memoised calls: each answer is the final memo's entry for its key; existing entries are never replaced; new entries hold the loader's result and the memo gains exactly the keys issued; each new entry's loader request is among those sent; requests sent never exceed the number of new entries |
| Memo.RunPassSendsOnlyNewKeys | movie-app-frontend/src/data/loaders.ts:10-188 | every request a pass sends is the loader request of some key issued in the pass that was not in the memo before it |
| Memo.RunPassSendsOnePerNewKey | movie-app-frontend/src/data/loaders.ts:10-188 | when the loader always sends exactly one request, a pass sends exactly one request per new memo entry |
| Upcoming.StartOfNextDay | movie-app-frontend/src/data/loaders.ts:88-90 | "tomorrow" lies strictly after now and at most one day later, and falls on a local midnight |
| Upcoming.NextDayIsEarliest | movie-app-frontend/src/data/loaders.ts:87-90 | no local midnight lies strictly between now and "tomorrow": it is the start of the next calendar day |
| Upcoming.IsUpcoming | movie-app-frontend/src/data/loaders.ts:94-96 | a movie passes when it has a (parseable) release date on or after tomorrow |
| Upcoming.UpcomingOnly | movie-app-frontend/src/data/loaders.ts:93-97 | every kept movie has a release date on or after tomorrow |
| Upcoming.UpcomingMovies | movie-app-frontend/src/data/loaders.ts:93-106 | every result is dated on or after tomorrow, so undated movies and movies dated today or earlier are excluded; the dates never decrease; the result is a permutation of exactly the entries that pass the filter |
| Upcoming.UpcomingCount | movie-app-frontend/src/data/loaders.ts:93-106 | nothing is added or dropped beyond the filter: each upcoming entry occurs as often as in the API's list, and no other entry occurs |
| Upcoming.UpcomingKeepsTieOrder | movie-app-frontend/src/data/loaders.ts:100-104 | movies released on the same instant keep the order the API listed them in |
| Upcoming.DatedAtUpcoming | movie-app-frontend/src/data/loaders.ts:93-97 | for an instant from tomorrow on, the filter keeps every movie released at that instant, in order |
| Upcoming.OnlyFutureReleaseSurvives | movie-app-frontend/src/data/loaders.ts:87-97 | from movies dated yesterday, today and in ten days, only the ten-days-out movie is returned |
| Seqs.Filter | movie-app-frontend/src/data/loaders.ts:93 | the filtered sequence holds only passing elements, all of them, drawn from the input |
| Seqs.FilterCount | movie-app-frontend/src/data/loaders.ts:93-97 | an element occurs in the filtered sequence as often as in the input if it passes, and never otherwise |
| StableSort.Insert | movie-app-frontend/src/data/loaders.ts:100-104 | inserting into a sorted sequence keeps it sorted and adds exactly the one element |
| StableSort.Sort | movie-app-frontend/src/data/loaders.ts:100-104 | the sort by a subtracting comparator gives a sequence sorted by key that is a permutation of the input |
| StableSort.InsertWithKey | movie-app-frontend/src/data/loaders.ts:100 | insertion places the new element before every earlier-inserted element with its key |
| StableSort.SortIsStable | movie-app-frontend/src/data/loaders.ts:100-104 | for every key, the elements with that key keep their input order |
| StableSort.WithKeyIsFilter | movie-app-frontend/src/data/loaders.ts:101-102 | selecting by key is the same as selecting by any predicate that agrees with it on the sequence |
| Trailer.IsOfficialCandidate | movie-app-frontend/src/data/loaders.ts:177-180 | site is "YouTube", type is "Trailer" or "Teaser", official is true, and size is 1080 |
| Trailer.FirstMatch | movie-app-frontend/src/data/loaders.ts:170-181 | the position found is the first video that is on YouTube, a Trailer or Teaser, official and 1080 in size; no match means no video passes all four tests |
| Trailer.TrailerKey | movie-app-frontend/src/data/loaders.ts:183 | a returned key is never empty and belongs to a video that passes the four-part test |
| Trailer.TrailerKeyIsFirstMatchKey | movie-app-frontend/src/data/loaders.ts:170-183 | if no passing video comes before a passing video, the result is that video's key, or null when that key is empty |
| Trailer.NoMatchNoTrailer | movie-app-frontend/src/data/loaders.ts:170-183 | if no video passes the test, the result is null |
| Trailer.LaterVideosIgnored | movie-app-frontend/src/data/loaders.ts:183 | videos after the first match never change the result; an empty-key first match gives null and does not fall through to later matches |
| Trailer.EarlierTeaserBeatsTrailer | movie-app-frontend/src/data/loaders.ts:177-178 | an official 1080p YouTube teaser listed before such a trailer wins ("abc" over "xyz") |

## Left out

- The real `fetch`, `response.json()`, `process.env` and `console.error`. Responses come from the `Network` parameter, the environment is the `Config` datatype of optional strings, and logging is dropped.
- JSON shapes other than the expected one. A body whose `results` is present but is not an array is decoded either as `Malformed` or as a well-typed envelope.
- JavaScript `Date` parsing. A release date is an optional millisecond timestamp: `None` covers a missing date and an unparseable one. In the code, `new Date("YYYY-MM-DD")` is UTC midnight while "tomorrow" is local midnight, so west of UTC a movie dated tomorrow parses to an instant before local midnight and is dropped; the model takes the parsed instant as given and does not reproduce this.
- Daylight-saving transitions. The local clock is a single fixed offset from UTC (`Clock.offsetMs`), so `setDate`/`setHours` across a DST change is not modelled.
- Movie fields with floating-point values (`vote_average`), plus `vote_count` and `release_dates`. No loader reads them.
- React's `cache` memoises only inside a server request. The visible callers of these loaders (`movie-fetcher.tsx`, and the client app's search page, which calls its own copy of the loaders) are client components calling from an effect, where `cache` memoises nothing; each such call corresponds to a `NewContext()` per call, and the memo lemmas apply to server request scopes only.
- The URL normalisation `fetch` performs. URL strings are compared as passed to `fetch`; percent-encoding by the URL parser (a space and `%20` reach the server alike) and the dropping of a `#` fragment are not modelled.
- React's `cache` internals, the request-scope lifetime, async scheduling and concurrent loader calls. The memo is an explicit map threaded through calls, and calls in a pass are sequential. A pass also takes one clock reading for all its calls, whereas each `getUpcomingMovies` call reads `new Date()` itself, so two upcoming queries in one pass that straddle midnight could in the code use different values of "tomorrow".
- The UI components, pages, the legacy Chakra revision, the inline fetches in the search pages, `movie-fetcher.tsx`'s trimming to twelve entries, and the end-to-end browser test. These are rendering and UI state.

=== FILE: fetch_apis.dfy ===
/**
 * The fetch adapter: one authenticated GET, and the mapping of its outcome to
 * a value or null. Every failure collapses to `None`; nothing escapes to the
 * caller, which a total function expresses directly.
 */
module FetchApis {
  import opened Wrappers
  import opened Http

  const AcceptJson: string := "application/json"

  /**
   * The request sent for `url`. The API key comes from the environment and an
   * unset (or empty) key is sent as the empty string.
   */
  function ApiRequest(url: string, apiKey: Option<string>): (r: Request)
    ensures r.verb == "GET" && r.url == url
    ensures HeaderValue(r.headers, "accept") == Some(AcceptJson)
    ensures apiKey.None? ==> HeaderValue(r.headers, "Authorization") == Some("")
    ensures apiKey.Some? ==> HeaderValue(r.headers, "Authorization") == Some(apiKey.value)
  {
    Request("GET", url, [Header("Authorization", apiKey.GetOr("")), Header("accept", AcceptJson)])
  }

  /** Why an exchange produced no data; the adapter only logs these. */
  datatype Failure = Transport | Status(code: int, text: string) | Decode

  /** The outcome of an exchange: the decoded body, or why there is none. */
  datatype Result<+V> = Decoded(value: V) | Failed(reason: Failure)

  /**
   * The exchange as a tagged result: the failure reason the adapter logs, or
   * the decoded body. The JSON literal `null` is a successful decode of null.
   */
  function Classify<B>(resp: Response<B>): (r: Result<Option<B>>)
    ensures r == Failed(Transport) <==> resp.NetworkError?
    ensures r.Failed? && r.reason.Status? <==> resp.Received? && !resp.Ok()
    ensures r.Failed? && r.reason.Status? ==> r.reason.code == resp.status
    ensures r == Failed(Decode) <==> resp.Ok() && resp.body.Malformed?
    ensures r.Decoded? ==> resp.Ok() && (r.value.Some? <==> resp.body.Json?)
  {
    match resp
    case NetworkError => Failed(Transport)
    case Received(status, text, body) =>
      if !resp.Ok() then Failed(Status(status, text))
      else match body
        case Malformed => Failed(Decode)
        case Null => Decoded(None)
        case Json(v) => Decoded(Some(v))
  }

  /**
   * `fetchAPI`: the decoded body of an ok response, and null for every
   * failure. A response that is not ok never yields any part of its body.
   */
  function FetchApi<B>(resp: Response<B>): (r: Option<B>)
    ensures !resp.Ok() ==> r == None
    ensures resp.Ok() && resp.body.Json? ==> r == Some(resp.body.value)
    ensures resp.Ok() && !resp.body.Json? ==> r == None
  {
    match Classify(resp)
    case Failed(_) => None
    case Decoded(v) => v
  }

  /**
   * `fetchAPIList`: the `results` sequence of an ok response, the empty
   * sequence when `results` is absent, and null for every failure. A JSON
   * `null` body fails too: reading `results` off it throws, and the throw is
   * caught.
   */
  function FetchApiList<T>(resp: Response<Envelope<T>>): (r: Option<seq<T>>)
    ensures !resp.Ok() ==> r == None
    ensures resp.Ok() && resp.body.Json? && resp.body.value.results.Some? ==> r == Some(resp.body.value.results.value)
    ensures resp.Ok() && resp.body.Json? && resp.body.value.results.None? ==> r == Some([])
    ensures resp.Ok() && !resp.body.Json? ==> r == None
  {
    match Classify(resp)
    case Failed(_) => None
    case Decoded(None) => None
    case Decoded(Some(envelope)) => Some(envelope.results.GetOr([]))
  }
}

=== FILE: http.dfy ===
/**
 * An abstract HTTP exchange: the request the adapter sends and the outcome it
 * observes. The network itself is not modelled; a loader receives it as a
 * function from requests to responses.
 */
module Http {
  import opened Wrappers

  datatype Header = Header(name: string, value: string)

  datatype Request = Request(verb: string, url: string, headers: seq<Header>)

  /** The value of the first header called `name`, if any. */
  function HeaderValue(headers: seq<Header>, name: string): Option<string>
  {
    if |headers| == 0 then None
    else if headers[0].name == name then Some(headers[0].value)
    else HeaderValue(headers[1..], name)
  }

  /**
   * What decoding the body as JSON yields: a parse failure, the JSON literal
   * `null`, or a value of the shape the caller expects.
   */
  datatype Body<+B> = Malformed | Null | Json(value: B)

  /**
   * A transport failure (the fetch itself rejects), or a received response
   * with its status line and its decoded body.
   */
  datatype Response<+B> = NetworkError | Received(status: int, statusText: string, body: Body<B>) {

    /** The Fetch standard's `ok`: a status in the range 200 to 299. */
    predicate Ok() {
      Received? && 200 <= status <= 299
    }
  }

  /** The envelope of a paginated list endpoint; `None` when `results` is absent or null. */
  datatype Envelope<+T> = Envelope(results: Option<seq<T>>)
}

=== FILE: loaders.dfy ===
/**
 * The catalog loaders. Each one checks that the base URL is configured,
 * composes its request URL, runs the exchange through the fetch adapter and
 * transforms the payload. The network is a parameter: a function from the
 * request sent to the response observed, one per payload shape. Each loader
 * reports the requests it sent, so "returns null without fetching" is a
 * statement about an empty list of requests.
 */
module Loaders {
  import opened Wrappers
  import opened Types
  import opened Http
  import opened FetchApis
  import opened Urls
  import opened Upcoming
  import opened Trailer
  import opened Memo

  /** The environment: the API base URL and the API key, each possibly unset. */
  datatype Config = Config(baseUrl: Option<string>, apiKey: Option<string>)

  /** `!BASE_URL` is false: the base URL is set and not empty. */
  predicate HasBase(cfg: Config)
  {
    cfg.baseUrl.Some? && cfg.baseUrl.value != ""
  }

  /** How the remote API answers a request, decoded in the shape each caller expects. */
  datatype Network = Network(
    movie: Request -> Response<Movie>,
    credits: Request -> Response<Credits>,
    movies: Request -> Response<Envelope<Movie>>,
    videos: Request -> Response<Envelope<Video>>
  )

  /** The local clock at call time: UTC milliseconds and the zone's offset from UTC. */
  datatype Clock = Clock(nowMs: int, offsetMs: int)

  /**
   * The request a loader sends for `arg` on the endpoint `endpoint`: a GET
   * accepting JSON, authorised by the configured key or by the empty string.
   */
  function RequestFor(cfg: Config, endpoint: Template, arg: string): (r: Request)
    ensures r.verb == "GET" && r.url == Fill(endpoint, arg)
    ensures HeaderValue(r.headers, "accept") == Some(AcceptJson)
    ensures HeaderValue(r.headers, "Authorization") == Some(cfg.apiKey.GetOr(""))
  {
    ApiRequest(Fill(endpoint, arg), cfg.apiKey)
  }

  /** `getMovie`: the movie record, or null when unconfigured or when the fetch fails. */
  function GetMovie(cfg: Config, id: string, net: Network): (o: Outcome<Option<Movie>>)
    ensures !HasBase(cfg) ==> o == Outcome(None, [])
    ensures HasBase(cfg) ==> o.sent == [RequestFor(cfg, MovieUrl(cfg.baseUrl.value), id)]
    ensures HasBase(cfg) ==> o.value == FetchApi(net.movie(o.sent[0]))
  {
    if !HasBase(cfg) then Outcome(None, [])
    else
      var req := RequestFor(cfg, MovieUrl(cfg.baseUrl.value), id);
      Outcome(FetchApi(net.movie(req)), [req])
  }

  /** `getCastAndCrew`: the cast and crew lists, or null. */
  function GetCastAndCrew(cfg: Config, id: string, net: Network): (o: Outcome<Option<Credits>>)
    ensures !HasBase(cfg) ==> o == Outcome(None, [])
    ensures HasBase(cfg) ==> o.sent == [RequestFor(cfg, CreditsUrl(cfg.baseUrl.value), id)]
    ensures HasBase(cfg) ==> o.value == FetchApi(net.credits(o.sent[0]))
  {
    if !HasBase(cfg) then Outcome(None, [])
    else
      var req := RequestFor(cfg, CreditsUrl(cfg.baseUrl.value), id);
      Outcome(FetchApi(net.credits(req)), [req])
  }

  /** `getNowPlayingMovies`: the API's list for the region, untransformed. */
  function GetNowPlayingMovies(cfg: Config, region: string, net: Network): (o: Outcome<Option<seq<Movie>>>)
    ensures !HasBase(cfg) ==> o == Outcome(None, [])
    ensures HasBase(cfg) ==> o.sent == [RequestFor(cfg, NowPlayingUrl(cfg.baseUrl.value), region)]
    ensures HasBase(cfg) ==> o.value == FetchApiList(net.movies(o.sent[0]))
  {
    if !HasBase(cfg) then Outcome(None, [])
    else
      var req := RequestFor(cfg, NowPlayingUrl(cfg.baseUrl.value), region);
      Outcome(FetchApiList(net.movies(req)), [req])
  }

  /**
   * `getUpcomingMovies`: null when unconfigured or when the list fetch
   * fails (never an empty list in its place); otherwise the movies released
   * from the start of tomorrow on, earliest first.
   */
  function GetUpcomingMovies(cfg: Config, region: string, net: Network, clock: Clock): (o: Outcome<Option<seq<Movie>>>)
    ensures !HasBase(cfg) ==> o == Outcome(None, [])
    ensures HasBase(cfg) ==> o.sent == [RequestFor(cfg, UpcomingUrl(cfg.baseUrl.value), region)]
    ensures HasBase(cfg) ==> (o.value.None? <==> FetchApiList(net.movies(o.sent[0])).None?)
    ensures HasBase(cfg) && FetchApiList(net.movies(o.sent[0])).Some? ==>
              o.value == Some(UpcomingMovies(FetchApiList(net.movies(o.sent[0])).value, StartOfNextDay(clock.nowMs, clock.offsetMs)))
    ensures o.value.Some? ==> forall i :: 0 <= i < |o.value.value| ==>
              o.value.value[i].releaseDate.Some?
              && o.value.value[i].releaseDate.value >= StartOfNextDay(clock.nowMs, clock.offsetMs)
              && o.value.value[i].releaseDate.value > clock.nowMs
  {
    if !HasBase(cfg) then Outcome(None, [])
    else
      var req := RequestFor(cfg, UpcomingUrl(cfg.baseUrl.value), region);
      match FetchApiList(net.movies(req))
      case None => Outcome(None, [req])
      case Some(movies) =>
        Outcome(Some(UpcomingMovies(movies, StartOfNextDay(clock.nowMs, clock.offsetMs))), [req])
  }

  /** `getSearchResults`: the API's matches for the raw term, untransformed. */
  function GetSearchResults(cfg: Config, term: string, net: Network): (o: Outcome<Option<seq<Movie>>>)
    ensures !HasBase(cfg) ==> o == Outcome(None, [])
    ensures HasBase(cfg) ==> o.sent == [RequestFor(cfg, SearchUrl(cfg.baseUrl.value), term)]
    ensures HasBase(cfg) ==> o.value == FetchApiList(net.movies(o.sent[0]))
  {
    if !HasBase(cfg) then Outcome(None, [])
    else
      var req := RequestFor(cfg, SearchUrl(cfg.baseUrl.value), term);
      Outcome(FetchApiList(net.movies(req)), [req])
  }

  /** `getTrendingMovies`: this week's trending list, untransformed. */
  function GetTrendingMovies(cfg: Config, net: Network): (o: Outcome<Option<seq<Movie>>>)
    ensures !HasBase(cfg) ==> o == Outcome(None, [])
    ensures HasBase(cfg) ==> o.sent == [RequestFor(cfg, TrendingUrl(cfg.baseUrl.value), "")]
    ensures HasBase(cfg) ==> o.value == FetchApiList(net.movies(o.sent[0]))
  {
    if !HasBase(cfg) then Outcome(None, [])
    else
      var req := RequestFor(cfg, TrendingUrl(cfg.baseUrl.value), "");
      Outcome(FetchApiList(net.movies(req)), [req])
  }

  /**
   * `getMovieTrailer`: always calls fetch once, even with the base URL
   * unset (the URL then starts with "undefined"). Its own inline fetch
   * handles failures exactly as the list adapter does: a status that is not
   * ok, a throw, an undecodable or null body all give null, and a missing
   * `results` is an empty list.
   */
  function GetMovieTrailer(cfg: Config, movieId: string, net: Network): (o: Outcome<Option<string>>)
    ensures o.sent == [RequestFor(cfg, VideosUrl(BaseText(cfg.baseUrl)), movieId)]
    ensures !net.videos(o.sent[0]).Ok() ==> o.value == None
    ensures FetchApiList(net.videos(o.sent[0])).None? ==> o.value == None
    ensures var resp := net.videos(o.sent[0]);
            resp.Ok() && !resp.body.Json? ==> o.value == None
    ensures var resp := net.videos(o.sent[0]);
            resp.Ok() && resp.body.Json? && resp.body.value.results.None? ==> o.value == None
    ensures FetchApiList(net.videos(o.sent[0])).Some? ==> o.value == TrailerKey(FetchApiList(net.videos(o.sent[0])).value)
    ensures o.value.Some? ==> o.value.value != ""
  {
    var req := RequestFor(cfg, VideosUrl(BaseText(cfg.baseUrl)), movieId);
    match FetchApiList(net.videos(req))
    case None => Outcome(None, [req])
    case Some(videos) => Outcome(TrailerKey(videos), [req])
  }

  /** A loader call: the operation and its arguments. This is the memo key. */
  datatype Query =
    | MovieQ(id: string)
    | CreditsQ(id: string)
    | NowPlayingQ(region: string)
    | UpcomingQ(region: string)
    | SearchQ(term: string)
    | TrendingQ
    | TrailerQ(movieId: string)

  datatype Answer =
    | MovieA(movie: Option<Movie>)
    | CreditsA(credits: Option<Credits>)
    | MoviesA(movies: Option<seq<Movie>>)
    | KeyA(key: Option<string>)

  /** The answer has the shape the query's loader returns. */
  predicate Fits(q: Query, a: Answer)
  {
    match q
    case MovieQ(_) => a.MovieA?
    case CreditsQ(_) => a.CreditsA?
    case TrailerQ(_) => a.KeyA?
    case _ => a.MoviesA?
  }

  /** Runs the query's loader, bypassing the memo. */
  function Load(cfg: Config, q: Query, net: Network, clock: Clock): (o: Outcome<Answer>)
    ensures Fits(q, o.value)
    ensures |o.sent| <= 1
    ensures HasBase(cfg) || q.TrailerQ? ==> |o.sent| == 1
  {
    match q
    case MovieQ(id) => var o := GetMovie(cfg, id, net); Outcome(MovieA(o.value), o.sent)
    case CreditsQ(id) => var o := GetCastAndCrew(cfg, id, net); Outcome(CreditsA(o.value), o.sent)
    case NowPlayingQ(region) => var o := GetNowPlayingMovies(cfg, region, net); Outcome(MoviesA(o.value), o.sent)
    case UpcomingQ(region) => var o := GetUpcomingMovies(cfg, region, net, clock); Outcome(MoviesA(o.value), o.sent)
    case SearchQ(term) => var o := GetSearchResults(cfg, term, net); Outcome(MoviesA(o.value), o.sent)
    case TrendingQ => var o := GetTrendingMovies(cfg, net); Outcome(MoviesA(o.value), o.sent)
    case TrailerQ(movieId) => var o := GetMovieTrailer(cfg, movieId, net); Outcome(KeyA(o.value), o.sent)
  }

  /** The null answer of each query. */
  function NoData(q: Query): (a: Answer)
    ensures Fits(q, a)
  {
    match q
    case MovieQ(_) => MovieA(None)
    case CreditsQ(_) => CreditsA(None)
    case TrailerQ(_) => KeyA(None)
    case _ => MoviesA(None)
  }

  /**
   * Without a base URL, every loader except the trailer lookup returns null
   * and sends nothing; the trailer lookup still calls fetch once.
   */
  lemma UnconfiguredLoadersSendNothing(cfg: Config, q: Query, net: Network, clock: Clock)
    requires !HasBase(cfg)
    ensures !q.TrailerQ? ==> Load(cfg, q, net, clock) == Outcome(NoData(q), [])
    ensures q.TrailerQ? ==> |Load(cfg, q, net, clock).sent| == 1
  {
  }

  /** With a base URL, every loader sends exactly one request, and an empty search term is no exception. */
  lemma ConfiguredLoadersSendOne(cfg: Config, q: Query, net: Network, clock: Clock)
    requires HasBase(cfg)
    ensures |Load(cfg, q, net, clock).sent| == 1
  {
  }

  /**
   * The server request scope owning the memo, keyed by operation and
   * arguments: one is created per server request and discarded after it. A
   * call made outside any server request, as from a client component's
   * effect, is memoised by nothing and corresponds to a fresh context per call.
   */
  datatype Context = Context(memo: map<Query, Answer>)

  /** Every memoised answer has the shape of the loader it came from. */
  predicate WellFormed(ctx: Context)
  {
    forall q :: q in ctx.memo ==> Fits(q, ctx.memo[q])
  }

  function NewContext(): (ctx: Context)
    ensures WellFormed(ctx) && |ctx.memo| == 0
  {
    Context(map[])
  }

  /** The loaders as one function of the query, for the memo. */
  function Loader(cfg: Config, net: Network, clock: Clock): (load: Query -> Outcome<Answer>)
    ensures forall q :: Fits(q, load(q).value) && |load(q).sent| <= 1
    ensures HasBase(cfg) ==> forall q :: |load(q).sent| == 1
  {
    q => Load(cfg, q, net, clock)
  }

  /** The requests the memo's view of a loader sends are the loader's own. */
  lemma LoaderSends(cfg: Config, q: Query, net: Network, clock: Clock)
    ensures Sends(Loader(cfg, net, clock), q) == Load(cfg, q, net, clock).sent
  {
  }

  /** A memoised call's answer, the requests it sent, and the context after it. */
  datatype Served = Served(answer: Answer, sent: seq<Request>, ctx: Context)

  /**
   * A memoised loader call: a query already answered in this context is
   * answered from the memo; otherwise its loader runs, its answer (null
   * included) is memoised, and a configured loader (or the unguarded trailer
   * lookup) sends exactly one request.
   */
  function CachedLoad(ctx: Context, cfg: Config, q: Query, net: Network, clock: Clock): (r: Served)
    requires WellFormed(ctx)
    ensures WellFormed(r.ctx) && Fits(q, r.answer)
    ensures q in ctx.memo ==> r.answer == ctx.memo[q] && r.sent == [] && r.ctx == ctx
    ensures q !in ctx.memo ==> r.answer == Load(cfg, q, net, clock).value && r.sent == Load(cfg, q, net, clock).sent
    ensures q !in ctx.memo ==> r.ctx.memo == ctx.memo[q := r.answer]
    ensures q !in ctx.memo && (HasBase(cfg) || q.TrailerQ?) ==> |r.sent| == 1
    ensures q !in ctx.memo && !HasBase(cfg) && !q.TrailerQ? ==> r.answer == NoData(q) && r.sent == []
  {
    var s := Call(ctx.memo, q, Loader(cfg, net, clock));
    Served(s.answer, s.sent, Context(s.memo))
  }

  /**
   * Repeating a loader call in the same server request scope returns the
   * memoised value without a second fetch, whatever the network or the clock
   * would now say.
   */
  lemma RepeatedLoadIsMemoised(ctx: Context, cfg: Config, q: Query, net: Network, net': Network, clock: Clock, clock': Clock)
    requires WellFormed(ctx)
    ensures var first := CachedLoad(ctx, cfg, q, net, clock);
            var second := CachedLoad(first.ctx, cfg, q, net', clock');
            second.answer == first.answer && second.sent == [] && second.ctx == first.ctx
  {
  }

  /** The answers of a render pass, every request it sent, and the context after it. */
  datatype Rendered = Rendered(answers: seq<Answer>, sent: seq<Request>, ctx: Context)

  /**
   * A render pass issuing the loader calls `qs` in a context. Each answer is
   * what the final memo holds for its query, so equal queries get equal
   * answers; earlier entries keep their values; new entries hold their
   * loader's answer; and each query not yet memoised costs at most one
   * request (`RenderPassSends` says which).
   */
  function RenderPass(ctx: Context, cfg: Config, qs: seq<Query>, net: Network, clock: Clock): (r: Rendered)
    requires WellFormed(ctx)
    ensures WellFormed(r.ctx) && |r.answers| == |qs|
    ensures forall i :: 0 <= i < |qs| ==> qs[i] in r.ctx.memo && r.answers[i] == r.ctx.memo[qs[i]]
    ensures forall i, j :: 0 <= i < |qs| && 0 <= j < |qs| && qs[i] == qs[j] ==> r.answers[i] == r.answers[j]
    ensures forall i :: 0 <= i < |qs| ==> Fits(qs[i], r.answers[i])
    ensures forall q :: q in r.ctx.memo <==> q in ctx.memo || q in qs
    ensures forall q :: q in ctx.memo ==> r.ctx.memo[q] == ctx.memo[q]
    ensures forall q :: q in r.ctx.memo && q !in ctx.memo ==> r.ctx.memo[q] == Load(cfg, q, net, clock).value
    ensures |r.sent| <= |r.ctx.memo| - |ctx.memo|
  {
    var load := Loader(cfg, net, clock);
    assert forall q :: load(q) == Load(cfg, q, net, clock);
    var p := RunPass(ctx.memo, qs, load);
    Rendered(p.answers, p.sent, Context(p.memo))
  }

  /**
   * The requests of a render pass are exactly the loaders' requests of the
   * queries not yet memoised: each one's request is sent, nothing else is
   * sent, and exactly one request goes out per such query when configured.
   */
  lemma RenderPassSends(ctx: Context, cfg: Config, qs: seq<Query>, net: Network, clock: Clock)
    requires WellFormed(ctx)
    ensures var r := RenderPass(ctx, cfg, qs, net, clock);
            forall q :: q in r.ctx.memo && q !in ctx.memo && |Load(cfg, q, net, clock).sent| == 1 ==>
              Load(cfg, q, net, clock).sent[0] in r.sent
    ensures SentByNewKeys(RenderPass(ctx, cfg, qs, net, clock).sent, ctx.memo, qs, Loader(cfg, net, clock))
    ensures var r := RenderPass(ctx, cfg, qs, net, clock);
            HasBase(cfg) ==> |r.sent| == |r.ctx.memo| - |ctx.memo|
  {
    var load := Loader(cfg, net, clock);
    assert forall q :: load(q) == Load(cfg, q, net, clock);
    RunPassSendsOnlyNewKeys(ctx.memo, qs, load);
    if HasBase(cfg) {
      RunPassSendsOnePerNewKey(ctx.memo, qs, load);
    }
  }

  /**
   * A pass in a fresh context sends at most one request per distinct query,
   * however often each repeats, and exactly one per distinct query when the
   * base URL is configured.
   */
  lemma FreshPassFetchesEachQueryOnce(cfg: Config, qs: seq<Query>, net: Network, clock: Clock)
    ensures |RenderPass(NewContext(), cfg, qs, net, clock).sent| <= |KeySet(qs)|
    ensures HasBase(cfg) ==> |RenderPass(NewContext(), cfg, qs, net, clock).sent| == |KeySet(qs)|
  {
    var r := RenderPass(NewContext(), cfg, qs, net, clock);
    RenderPassSends(NewContext(), cfg, qs, net, clock);
    assert r.ctx.memo.Keys == KeySet(qs);
  }

  /** Without a base URL, requests drawn from the loaders of some queries all come from trailer lookups among them. */
  lemma OnlyTrailersSendUnconfigured(sent: seq<Request>, memo: map<Query, Answer>, cfg: Config, qs: seq<Query>, net: Network, clock: Clock)
    requires !HasBase(cfg) && SentByNewKeys(sent, memo, qs, Loader(cfg, net, clock))
    ensures forall req :: req in sent ==> exists j :: 0 <= j < |qs| && qs[j] !in memo && qs[j].TrailerQ?
  {
    forall req | req in sent
      ensures exists j :: 0 <= j < |qs| && qs[j] !in memo && qs[j].TrailerQ?
    {
      var j :| 0 <= j < |qs| && qs[j] !in memo && req in Sends(Loader(cfg, net, clock), qs[j]);
      LoaderSends(cfg, qs[j], net, clock);
      UnconfiguredLoadersSendNothing(cfg, qs[j], net, clock);
    }
  }

  /**
   * Without a base URL, a render pass fetches only for trailer lookups not
   * yet memoised: the six guarded loaders never reach the network.
   */
  lemma UnconfiguredPassFetchesOnlyTrailers(ctx: Context, cfg: Config, qs: seq<Query>, net: Network, clock: Clock)
    requires WellFormed(ctx) && !HasBase(cfg)
    ensures forall req :: req in RenderPass(ctx, cfg, qs, net, clock).sent ==>
              exists j :: 0 <= j < |qs| && qs[j] !in ctx.memo && qs[j].TrailerQ?
  {
    RunPassSendsOnlyNewKeys(ctx.memo, qs, Loader(cfg, net, clock));
    OnlyTrailersSendUnconfigured(RenderPass(ctx, cfg, qs, net, clock).sent, ctx.memo, cfg, qs, net, clock);
  }

  /** Loaders that take an argument send distinct URLs for distinct arguments. */
  lemma DistinctArgumentsDistinctUrls(cfg: Config, endpoint: Template, a: string, b: string)
    requires a != b
    ensures RequestFor(cfg, endpoint, a).url != RequestFor(cfg, endpoint, b).url
  {
  }

  /** An empty search term is not short-circuited: the request is sent with `query=` empty. */
  lemma EmptySearchStillFetches(cfg: Config, net: Network)
    requires HasBase(cfg)
    ensures GetSearchResults(cfg, "", net).sent == [RequestFor(cfg, SearchUrl(cfg.baseUrl.value), "")]
  {
  }
}

=== FILE: memo.dfy ===
/**
 * Per-argument memoisation, the behaviour of React's `cache` within one
 * server request scope: the first call with an argument runs the loader and
 * remembers its result, null results included; a later call with an equal
 * argument returns the remembered result and runs nothing.
 */
module Memo {
  import opened Http

  /** A loader's result together with the requests it sent to obtain it. */
  datatype Outcome<+V> = Outcome(value: V, sent: seq<Request>)

  datatype Step<K, V> = Step(answer: V, sent: seq<Request>, memo: map<K, V>)

  /** A memoised call of `load` on `key`. */
  function Call<K(==), V>(memo: map<K, V>, key: K, load: K -> Outcome<V>): (s: Step<K, V>)
    ensures key in memo ==> s.answer == memo[key] && s.sent == [] && s.memo == memo
    ensures key !in memo ==> s.answer == load(key).value && s.sent == load(key).sent
    ensures s.memo == memo[key := s.answer]
  {
    if key in memo then Step(memo[key], [], memo)
    else
      var o := load(key);
      Step(o.value, o.sent, memo[key := o.value])
  }

  /** The distinct keys of a sequence of calls. */
  function KeySet<K(==,!new)>(keys: seq<K>): (r: set<K>)
    ensures forall i :: 0 <= i < |keys| ==> keys[i] in r
    ensures forall k :: k in r ==> k in keys
    ensures |r| <= |keys|
    decreases |keys|
  {
    if |keys| == 0 then {} else {keys[0]} + KeySet(keys[1..])
  }

  /** The requests the loader of `k` sends. */
  function Sends<K, V>(load: K -> Outcome<V>, k: K): seq<Request>
  {
    load(k).sent
  }

  /** Every request in `sent` is sent by the loader of one of `keys` not in `memo`. */
  ghost predicate SentByNewKeys<K, V>(sent: seq<Request>, memo: map<K, V>, keys: seq<K>, load: K -> Outcome<V>)
  {
    forall r :: r in sent ==> exists j :: 0 <= j < |keys| && keys[j] !in memo && r in Sends(load, keys[j])
  }

  /**
   * The requests of a first call followed by those of the calls after it
   * all come from keys new to the memo the first call started from.
   */
  lemma SentByNewKeysAppend<K, V>(s1: seq<Request>, s2: seq<Request>, m0: map<K, V>, m1: map<K, V>, keys: seq<K>, load: K -> Outcome<V>)
    requires |keys| > 0
    requires SentByNewKeys(s1, m0, keys[..1], load) && SentByNewKeys(s2, m1, keys[1..], load)
    requires forall k :: k in m0 ==> k in m1
    ensures SentByNewKeys(s1 + s2, m0, keys, load)
  {
    forall r | r in s1 + s2
      ensures exists j :: 0 <= j < |keys| && keys[j] !in m0 && r in Sends(load, keys[j])
    {
      if r in s1 {
        var j :| 0 <= j < 1 && keys[..1][j] !in m0 && r in Sends(load, keys[..1][j]);
        assert keys[j] == keys[..1][j];
      } else {
        var j :| 0 <= j < |keys[1..]| && keys[1..][j] !in m1 && r in Sends(load, keys[1..][j]);
        assert keys[j + 1] == keys[1..][j];
      }
    }
  }

  datatype Pass<K, V> = Pass(answers: seq<V>, sent: seq<Request>, memo: map<K, V>)

  /**
   * Memoised calls on `keys`, in order, with a loader that sends at most one
   * request. Each answer is what the final memo holds for its key, so equal
   * keys get equal answers; entries already present are never replaced, new
   * ones hold the loader's result; each newly memoised key's request is
   * sent, and at most one request is sent per key newly memoised.
   */
  function RunPass<K(==,!new), V>(memo: map<K, V>, keys: seq<K>, load: K -> Outcome<V>): (p: Pass<K, V>)
    requires forall k :: |load(k).sent| <= 1
    ensures |p.answers| == |keys|
    ensures forall i :: 0 <= i < |keys| ==> keys[i] in p.memo && p.answers[i] == p.memo[keys[i]]
    ensures forall k :: k in memo ==> k in p.memo && p.memo[k] == memo[k]
    ensures forall k :: k in p.memo && k !in memo ==> p.memo[k] == load(k).value
    ensures forall k :: k in p.memo <==> k in memo || k in keys
    ensures forall k :: k in p.memo && k !in memo && |load(k).sent| == 1 ==> load(k).sent[0] in p.sent
    ensures |p.sent| <= |p.memo| - |memo|
    decreases |keys|
  {
    if |keys| == 0 then Pass([], [], memo)
    else
      var s := Call(memo, keys[0], load);
      var rest := RunPass(s.memo, keys[1..], load);
      assert |s.sent| <= |s.memo| - |memo|;
      var p := Pass([s.answer] + rest.answers, s.sent + rest.sent, rest.memo);
      assert |p.sent| == |s.sent| + |rest.sent|;
      forall i | 0 <= i < |keys|
        ensures keys[i] in p.memo && p.answers[i] == p.memo[keys[i]]
      {
        if i > 0 {
          assert keys[i] == keys[1..][i - 1];
        }
      }
      p
  }

  /** With a loader that always sends one request, a pass sends exactly one per key newly memoised. */
  lemma {:induction false} RunPassSendsOnePerNewKey<K(!new), V>(memo: map<K, V>, keys: seq<K>, load: K -> Outcome<V>)
    requires forall k :: |load(k).sent| == 1
    ensures |RunPass(memo, keys, load).sent| == |RunPass(memo, keys, load).memo| - |memo|
    decreases |keys|
  {
    if |keys| > 0 {
      var s := Call(memo, keys[0], load);
      RunPassSendsOnePerNewKey(s.memo, keys[1..], load);
      assert |s.sent| == |s.memo| - |memo|;
    }
  }

  /** A pass sends nothing but the requests of the loaders of keys it newly memoises. */
  lemma {:induction false} RunPassSendsOnlyNewKeys<K(!new), V>(memo: map<K, V>, keys: seq<K>, load: K -> Outcome<V>)
    requires forall k :: |load(k).sent| <= 1
    ensures SentByNewKeys(RunPass(memo, keys, load).sent, memo, keys, load)
    decreases |keys|
  {
    if |keys| > 0 {
      var s := Call(memo, keys[0], load);
      var rest := RunPass(s.memo, keys[1..], load);
      RunPassSendsOnlyNewKeys(s.memo, keys[1..], load);
      assert SentByNewKeys(s.sent, memo, keys[..1], load);
      SentByNewKeysAppend(s.sent, rest.sent, memo, s.memo, keys, load);
    }
  }
}

=== FILE: seqs.dfy ===
/** Order-preserving filtering of sequences, as `Array.prototype.filter` does. */
module Seqs {

  /** The elements of `s` that satisfy `p`, in their original order. */
  function Filter<T>(s: seq<T>, p: T -> bool): (r: seq<T>)
    ensures |r| <= |s|
    ensures forall i :: 0 <= i < |r| ==> p(r[i])
    ensures forall i :: 0 <= i < |r| ==> r[i] in s
    ensures forall i :: 0 <= i < |s| && p(s[i]) ==> s[i] in r
    decreases |s|
  {
    if |s| == 0 then []
    else (if p(s[0]) then [s[0]] else []) + Filter(s[1..], p)
  }

  /** Each element occurs in the filtered sequence as often as in `s` if it passes, and never otherwise. */
  lemma {:induction false} FilterCount<T>(s: seq<T>, p: T -> bool, x: T)
    ensures multiset(Filter(s, p))[x] == if p(x) then multiset(s)[x] else 0
    decreases |s|
  {
    if |s| > 0 {
      FilterCount(s[1..], p, x);
      assert s == [s[0]] + s[1..];
      assert multiset(s) == multiset{s[0]} + multiset(s[1..]);
    }
  }
}

=== FILE: stable_sort.dfy ===
/**
 * A stable sort by an integer key, the behaviour `Array.prototype.sort` has
 * with a comparator that subtracts keys: the result is ordered by key, is a
 * permutation of the input, and keeps elements with equal keys in their
 * original relative order.
 */
module StableSort {
  import opened Seqs

  predicate SortedBy<T>(s: seq<T>, key: T -> int)
  {
    forall i, j :: 0 <= i < j < |s| ==> key(s[i]) <= key(s[j])
  }

  /** Places `x` before the first element whose key is not smaller than its own. */
  function Insert<T>(x: T, s: seq<T>, key: T -> int): (r: seq<T>)
    requires SortedBy(s, key)
    ensures SortedBy(r, key)
    ensures multiset(r) == multiset(s) + multiset{x}
    ensures |r| == |s| + 1
    ensures forall i :: 0 <= i < |r| ==> r[i] == x || r[i] in s
    decreases |s|
  {
    if |s| == 0 || key(x) <= key(s[0]) then [x] + s
    else
      var rest := Insert(x, s[1..], key);
      assert s == [s[0]] + s[1..];
      assert forall i :: 0 <= i < |rest| ==> key(s[0]) <= key(rest[i]);
      ConsSorted(s[0], rest, key);
      ConsMembers(s[0], rest, x, s[1..]);
      [s[0]] + rest
  }

  /** Elements drawn from `x` and `t` stay so drawn from `x` and `[y] + t` after `y` is put in front. */
  lemma ConsMembers<T>(y: T, rest: seq<T>, x: T, t: seq<T>)
    requires forall i :: 0 <= i < |rest| ==> rest[i] == x || rest[i] in t
    ensures forall i :: 0 <= i < |rest| + 1 ==> ([y] + rest)[i] == x || ([y] + rest)[i] in [y] + t
  {
    forall i | 0 <= i < |rest| + 1
      ensures ([y] + rest)[i] == x || ([y] + rest)[i] in [y] + t
    {
      if i > 0 {
        assert ([y] + rest)[i] == rest[i - 1];
      }
    }
  }

  /** A sorted sequence stays sorted under a new first element whose key bounds it from below. */
  lemma ConsSorted<T>(y: T, s: seq<T>, key: T -> int)
    requires SortedBy(s, key)
    requires forall i :: 0 <= i < |s| ==> key(y) <= key(s[i])
    ensures SortedBy([y] + s, key)
  {
    forall i, j | 0 <= i < j < |s| + 1
      ensures key(([y] + s)[i]) <= key(([y] + s)[j])
    {
      assert ([y] + s)[j] == s[j - 1];
    }
  }

  /** Insertion sort from the back of the sequence. */
  function Sort<T>(s: seq<T>, key: T -> int): (r: seq<T>)
    ensures SortedBy(r, key)
    ensures multiset(r) == multiset(s)
    ensures |r| == |s|
    decreases |s|
  {
    if |s| == 0 then []
    else
      assert s == [s[0]] + s[1..];
      Insert(s[0], Sort(s[1..], key), key)
  }

  /** The elements of `s` whose key is `k`, in order. */
  function WithKey<T>(s: seq<T>, key: T -> int, k: int): seq<T>
  {
    Filter(s, x => key(x) == k)
  }

  /**
   * An element with a smaller key placed in front of both sides does not
   * disturb an equation that puts `x` first among the elements with key `k`.
   */
  lemma ConsPastSmaller<T>(y: T, rest: seq<T>, tail: seq<T>, x: T, key: T -> int, k: int)
    requires key(y) < key(x)
    requires WithKey(rest, key, k) == (if key(x) == k then [x] else []) + WithKey(tail, key, k)
    ensures WithKey([y] + rest, key, k) == (if key(x) == k then [x] else []) + WithKey([y] + tail, key, k)
  {
    assert ([y] + rest)[1..] == rest;
    assert ([y] + tail)[1..] == tail;
  }

  lemma {:induction false} InsertWithKey<T>(x: T, s: seq<T>, key: T -> int, k: int)
    requires SortedBy(s, key)
    ensures WithKey(Insert(x, s, key), key, k) == (if key(x) == k then [x] else []) + WithKey(s, key, k)
    decreases |s|
  {
    if |s| == 0 || key(x) <= key(s[0]) {
      assert ([x] + s)[1..] == s;
    } else {
      InsertWithKey(x, s[1..], key, k);
      ConsPastSmaller(s[0], Insert(x, s[1..], key), s[1..], x, key, k);
      assert s == [s[0]] + s[1..];
    }
  }

  /**
   * Stability: for every key, the elements carrying that key appear in the
   * sorted sequence in exactly the order they had in the input.
   */
  lemma {:induction false} SortIsStable<T>(s: seq<T>, key: T -> int, k: int)
    ensures WithKey(Sort(s, key), key, k) == WithKey(s, key, k)
    decreases |s|
  {
    if |s| > 0 {
      SortIsStable(s[1..], key, k);
      InsertWithKey(s[0], Sort(s[1..], key), key, k);
    }
  }

  /** Filtering by any predicate that agrees with "has key `k`" on `s` selects the same subsequence. */
  lemma {:induction false} WithKeyIsFilter<T>(s: seq<T>, key: T -> int, k: int, q: T -> bool)
    requires forall i :: 0 <= i < |s| ==> (key(s[i]) == k) == q(s[i])
    ensures WithKey(s, key, k) == Filter(s, q)
    decreases |s|
  {
    if |s| > 0 {
      WithKeyIsFilter(s[1..], key, k, q);
    }
  }
}

=== FILE: trailer.dfy ===
/**
 * The selection rule of `getMovieTrailer`: the key of the first video, in
 * the order the API lists them, that is an official 1080p YouTube trailer or
 * teaser.
 */
module Trailer {
  import opened Wrappers
  import opened Types

  /** The four-part test every candidate video must pass. */
  predicate IsOfficialCandidate(v: Video)
  {
    && v.site == "YouTube"
    && (v.kind == "Trailer" || v.kind == "Teaser")
    && v.official
    && v.size == 1080
  }

  /** `Array.prototype.find`: the position of the first video passing the test. */
  function FirstMatch(videos: seq<Video>): (r: Option<nat>)
    ensures r.Some? ==> r.value < |videos| && IsOfficialCandidate(videos[r.value])
    ensures r.Some? ==> forall j :: 0 <= j < r.value ==> !IsOfficialCandidate(videos[j])
    ensures r.None? ==> forall j :: 0 <= j < |videos| ==> !IsOfficialCandidate(videos[j])
    decreases |videos|
  {
    if |videos| == 0 then None
    else if IsOfficialCandidate(videos[0]) then Some(0)
    else match FirstMatch(videos[1..])
      case None => None
      case Some(i) => Some(i + 1)
  }

  /**
   * The key of the first matching video, or `None` when no video matches or
   * when the first match has an empty key (an empty key is falsy, so the
   * source's `trailer?.key || null` yields null).
   */
  function TrailerKey(videos: seq<Video>): (r: Option<string>)
    ensures r.Some? ==> r.value != ""
    ensures r.Some? ==> exists i :: 0 <= i < |videos| && IsOfficialCandidate(videos[i]) && videos[i].key == r.value
  {
    match FirstMatch(videos)
    case None => None
    case Some(i) => if videos[i].key == "" then None else Some(videos[i].key)
  }

  /**
   * The rule stated without `find`: the result is the key of the matching
   * video that no other matching video precedes, and is absent exactly when
   * there is no match or that video's key is empty.
   */
  lemma TrailerKeyIsFirstMatchKey(videos: seq<Video>, i: nat)
    requires i < |videos| && IsOfficialCandidate(videos[i])
    requires forall j :: 0 <= j < i ==> !IsOfficialCandidate(videos[j])
    ensures videos[i].key != "" ==> TrailerKey(videos) == Some(videos[i].key)
    ensures videos[i].key == "" ==> TrailerKey(videos) == None
  {
  }

  /** With no matching video at all, there is no trailer. */
  lemma NoMatchNoTrailer(videos: seq<Video>)
    requires forall j :: 0 <= j < |videos| ==> !IsOfficialCandidate(videos[j])
    ensures TrailerKey(videos) == None
  {
  }

  /**
   * Videos listed after a match never change the answer, whatever they are:
   * in particular a first match with an empty key does not fall through to a
   * later match.
   */
  lemma {:induction false} LaterVideosIgnored(before: seq<Video>, after: seq<Video>)
    requires FirstMatch(before).Some?
    ensures TrailerKey(before + after) == TrailerKey(before)
  {
    var i := FirstMatch(before).value;
    var all := before + after;
    assert all[i] == before[i];
    assert forall j :: 0 <= j < i ==> all[j] == before[j];
    TrailerKeyIsFirstMatchKey(all, i);
  }

  /** A teaser listed before a trailer wins: the rule ranks by list order, not by type. */
  lemma EarlierTeaserBeatsTrailer(teaser: Video, trailer: Video)
    requires teaser == Video(teaser.id, "abc", teaser.name, "YouTube", "Teaser", true, 1080)
    requires trailer == Video(trailer.id, "xyz", trailer.name, "YouTube", "Trailer", true, 1080)
    ensures TrailerKey([teaser, trailer]) == Some("abc")
  {
  }
}

=== FILE: types.dfy ===
/**
 * The entities the catalog loaders return. Each is a read-only projection
 * of a JSON object sent by the remote movie database.
 */
module Types {
  import opened Wrappers

  datatype Genre = Genre(id: int, name: string)

  /**
   * A movie. `releaseDate` is the release date already parsed to a
   * millisecond timestamp; `None` stands both for a missing date and for one
   * that does not parse (a JavaScript `Date` holding NaN).
   */
  datatype Movie = Movie(
    id: int,
    title: string,
    overview: string,
    posterPath: string,
    backdropPath: string,
    releaseDate: Option<int>,
    genres: seq<Genre>,
    runtime: int
  )

  /** `role` is the character for cast members and the job for crew members. */
  datatype CastAndCrew = CastAndCrew(id: int, name: string, profilePath: Option<string>, role: string)

  datatype Credits = Credits(cast: seq<CastAndCrew>, crew: seq<CastAndCrew>)

  /** A video attached to a movie; `kind` is the JSON field `type`. */
  datatype Video = Video(
    id: string,
    key: string,
    name: string,
    site: string,
    kind: string,
    official: bool,
    size: int
  )
}

=== FILE: upcoming.dfy ===
/**
 * The transform of `getUpcomingMovies`: keep the movies released on or after
 * the start of tomorrow, then order them by release date, earliest first.
 */
module Upcoming {
  import opened Wrappers
  import opened Types
  import opened Seqs
  import opened StableSort

  const DayMs: int := 86_400_000

  /**
   * Midnight at the start of the calendar day after `nowMs`, in a zone whose
   * local time is UTC plus `offsetMs`: the current date plus one day, with
   * the time of day set to 00:00:00.000.
   */
  function StartOfNextDay(nowMs: int, offsetMs: int): (t: int)
    ensures nowMs < t <= nowMs + DayMs
    ensures (t + offsetMs) % DayMs == 0
  {
    var local := nowMs + offsetMs;
    var t := (local / DayMs + 1) * DayMs - offsetMs;
    assert local % DayMs == local - (local / DayMs) * DayMs;
    assert t + offsetMs == (local / DayMs + 1) * DayMs;
    t
  }

  /** No local midnight lies strictly between `nowMs` and the start of the next day. */
  lemma NextDayIsEarliest(nowMs: int, offsetMs: int, u: int)
    requires nowMs < u
    requires (u + offsetMs) % DayMs == 0
    ensures StartOfNextDay(nowMs, offsetMs) <= u
  {
  }

  /** A movie is upcoming when it has a release date on or after `tomorrow`. */
  predicate IsUpcoming(m: Movie, tomorrow: int)
  {
    match m.releaseDate
    case None => false
    case Some(t) => t >= tomorrow
  }

  /** The sort key; only movies with a release date ever reach the sort. */
  function ReleaseTime(m: Movie): int
  {
    m.releaseDate.GetOr(0)
  }

  /** The entries of `movies` that pass the upcoming filter, in API order. */
  function UpcomingOnly(movies: seq<Movie>, tomorrow: int): (r: seq<Movie>)
    ensures forall i :: 0 <= i < |r| ==> IsUpcoming(r[i], tomorrow)
  {
    Filter(movies, m => IsUpcoming(m, tomorrow))
  }

  /**
   * The upcoming movies of `movies`, earliest release first: every entry is
   * dated on or after `tomorrow`, the dates never decrease, and the result
   * is a rearrangement of exactly the entries that pass the filter.
   */
  function UpcomingMovies(movies: seq<Movie>, tomorrow: int): (r: seq<Movie>)
    ensures forall i :: 0 <= i < |r| ==> r[i].releaseDate.Some? && r[i].releaseDate.value >= tomorrow
    ensures forall i, j :: 0 <= i < j < |r| ==> r[i].releaseDate.value <= r[j].releaseDate.value
    ensures multiset(r) == multiset(UpcomingOnly(movies, tomorrow))
  {
    var kept := UpcomingOnly(movies, tomorrow);
    var r := Sort(kept, ReleaseTime);
    forall i | 0 <= i < |r|
      ensures IsUpcoming(r[i], tomorrow)
    {
      assert r[i] in multiset(kept);
      var k :| 0 <= k < |kept| && kept[k] == r[i];
    }
    r
  }

  /**
   * Nothing is added or dropped beyond the filter: each upcoming entry occurs
   * in the result as often as in the API's list, and no other entry occurs.
   */
  lemma {:induction false} UpcomingCount(movies: seq<Movie>, tomorrow: int, m: Movie)
    ensures multiset(UpcomingMovies(movies, tomorrow))[m] == if IsUpcoming(m, tomorrow) then multiset(movies)[m] else 0
  {
    FilterCount(movies, m => IsUpcoming(m, tomorrow), m);
  }

  /** The movie is released exactly at instant `t`. */
  predicate ReleasedAt(m: Movie, t: int)
  {
    m.releaseDate == Some(t)
  }

  /** The entries of `s` released exactly at instant `t`, in order. */
  function DatedAt(s: seq<Movie>, t: int): seq<Movie>
  {
    Filter(s, m => ReleasedAt(m, t))
  }

  /**
   * Movies released on the same instant keep the order the API listed them
   * in: the sort is stable.
   */
  lemma {:induction false} UpcomingKeepsTieOrder(movies: seq<Movie>, tomorrow: int, t: int)
    requires t >= tomorrow
    ensures DatedAt(UpcomingMovies(movies, tomorrow), t) == DatedAt(movies, t)
  {
    var kept := UpcomingOnly(movies, tomorrow);
    var sorted := UpcomingMovies(movies, tomorrow);
    assert sorted == Sort(kept, ReleaseTime);
    SortIsStable(kept, ReleaseTime, t);
    forall i | 0 <= i < |kept|
      ensures (ReleaseTime(kept[i]) == t) == ReleasedAt(kept[i], t)
    {
      assert IsUpcoming(kept[i], tomorrow);
    }
    WithKeyIsFilter(kept, ReleaseTime, t, m => ReleasedAt(m, t));
    forall i | 0 <= i < |sorted|
      ensures (ReleaseTime(sorted[i]) == t) == ReleasedAt(sorted[i], t)
    {
      assert sorted[i].releaseDate.Some?;
    }
    WithKeyIsFilter(sorted, ReleaseTime, t, m => ReleasedAt(m, t));
    DatedAtUpcoming(movies, tomorrow, t);
  }

  /** Every entry dated at an instant from `tomorrow` on survives the filter, in order. */
  lemma {:induction false} DatedAtUpcoming(movies: seq<Movie>, tomorrow: int, t: int)
    requires t >= tomorrow
    ensures DatedAt(UpcomingOnly(movies, tomorrow), t) == DatedAt(movies, t)
    decreases |movies|
  {
    if |movies| > 0 {
      DatedAtUpcoming(movies[1..], tomorrow, t);
      var kept := UpcomingOnly(movies, tomorrow);
      var m := movies[0];
      assert DatedAt(movies, t) == (if ReleasedAt(m, t) then [m] else []) + DatedAt(movies[1..], t);
      if IsUpcoming(m, tomorrow) {
        assert kept == [m] + UpcomingOnly(movies[1..], tomorrow);
        assert kept[0] == m;
        assert kept[1..] == UpcomingOnly(movies[1..], tomorrow);
        assert DatedAt(kept, t) == (if ReleasedAt(m, t) then [m] else []) + DatedAt(kept[1..], t);
      } else {
        assert !ReleasedAt(m, t);
        assert kept == UpcomingOnly(movies[1..], tomorrow);
      }
    }
  }

  /**
   * Movies dated yesterday, today and ten days from now: only the last one
   * is upcoming.
   */
  lemma OnlyFutureReleaseSurvives(nowMs: int, offsetMs: int, yesterday: Movie, today: Movie, later: Movie)
    requires yesterday.releaseDate == Some(StartOfNextDay(nowMs, offsetMs) - 2 * DayMs)
    requires today.releaseDate == Some(StartOfNextDay(nowMs, offsetMs) - DayMs)
    requires later.releaseDate == Some(StartOfNextDay(nowMs, offsetMs) + 9 * DayMs)
    ensures UpcomingMovies([yesterday, today, later], StartOfNextDay(nowMs, offsetMs)) == [later]
  {
    var tomorrow := StartOfNextDay(nowMs, offsetMs);
    var movies := [yesterday, today, later];
    assert movies[1..] == [today, later];
    assert movies[1..][1..] == [later];
    assert !IsUpcoming(yesterday, tomorrow) && !IsUpcoming(today, tomorrow) && IsUpcoming(later, tomorrow);
    assert UpcomingOnly([later], tomorrow) == [later] + UpcomingOnly([later][1..], tomorrow);
    assert UpcomingOnly([today, later], tomorrow) == UpcomingOnly([later], tomorrow);
    assert UpcomingOnly(movies, tomorrow) == [later];
    assert Sort([later], ReleaseTime) == [later];
  }
}

=== FILE: urls.dfy ===
/**
 * Request URLs. Each endpoint is a fixed prefix (the base URL and the resource
 * path) and a fixed suffix (the query string) around one caller-supplied
 * argument, which is inserted raw: no encoding or escaping is applied.
 */
module Urls {
  import opened Wrappers

  datatype Template = Template(prefix: string, suffix: string)

  /** The URL for `arg`: the argument appears verbatim between prefix and suffix. */
  function Fill(t: Template, arg: string): (url: string)
    ensures |url| == |t.prefix| + |arg| + |t.suffix|
    ensures url[..|t.prefix|] == t.prefix
    ensures url[|t.prefix|..|t.prefix| + |arg|] == arg
    ensures url[|t.prefix| + |arg|..] == t.suffix
  {
    t.prefix + arg + t.suffix
  }

  /** The argument a URL was built from, if it has the template's shape. */
  function Match(t: Template, url: string): (r: Option<string>)
    ensures r.Some? ==> |t.prefix| + |r.value| + |t.suffix| == |url|
  {
    if |url| >= |t.prefix| + |t.suffix|
       && url[..|t.prefix|] == t.prefix
       && url[|url| - |t.suffix|..] == t.suffix
    then Some(url[|t.prefix|..|url| - |t.suffix|])
    else None
  }

  /** Reading the argument back from a filled URL gives the argument. */
  lemma MatchFill(t: Template, arg: string)
    ensures Match(t, Fill(t, arg)) == Some(arg)
  {
  }

  /** A URL the template matches is the one filled from the argument it yields. */
  lemma FillMatch(t: Template, url: string)
    requires Match(t, url).Some?
    ensures Fill(t, Match(t, url).value) == url
  {
  }

  /** Distinct arguments give distinct URLs. */
  lemma FillInjective(t: Template, a: string, b: string)
    requires Fill(t, a) == Fill(t, b)
    ensures a == b
  {
  }

  /** `${BASE_URL}` in a template literal: the configured text, or "undefined" when unset. */
  function BaseText(baseUrl: Option<string>): (s: string)
    ensures baseUrl.Some? ==> s == baseUrl.value
    ensures baseUrl.None? ==> s == "undefined"
  {
    baseUrl.GetOr("undefined")
  }

  function MovieUrl(base: string): (t: Template)
    ensures forall id :: Fill(t, id) == base + "/movie/" + id + "?language=en-US"
  {
    Template(base + "/movie/", "?language=en-US")
  }

  function CreditsUrl(base: string): (t: Template)
    ensures forall id :: Fill(t, id) == base + "/movie/" + id + "/credits?language=en-US"
  {
    Template(base + "/movie/", "/credits?language=en-US")
  }

  function NowPlayingUrl(base: string): (t: Template)
    ensures forall region :: Fill(t, region) == base + "/movie/now_playing?language=en-US&page=1&region=" + region
  {
    Template(base + "/movie/now_playing?language=en-US&page=1&region=", "")
  }

  function UpcomingUrl(base: string): (t: Template)
    ensures forall region :: Fill(t, region) == base + "/movie/upcoming?language=en-US&page=1&region=" + region
  {
    Template(base + "/movie/upcoming?language=en-US&page=1&region=", "")
  }

  function SearchUrl(base: string): (t: Template)
    ensures forall term :: Fill(t, term) == base + "/search/movie?query=" + term + "&include_adult=false&language=en-US&page=1"
  {
    Template(base + "/search/movie?query=", "&include_adult=false&language=en-US&page=1")
  }

  /** Trending takes no argument; it is the one endpoint filled with the empty string. */
  function TrendingUrl(base: string): (t: Template)
    ensures Fill(t, "") == base + "/trending/movie/week?language=en-US"
  {
    Template(base + "/trending/movie/week?language=en-US", "")
  }

  function VideosUrl(base: string): (t: Template)
    ensures forall movieId :: Fill(t, movieId) == base + "/movie/" + movieId + "/videos?language=en-US"
  {
    Template(base + "/movie/", "/videos?language=en-US")
  }
}

=== FILE: wrappers.dfy ===
/** The optional-value datatype used wherever the source returns `T | null`. */
module Wrappers {

  datatype Option<+T> = None | Some(value: T) {

    /** The encapsulated value, or `default` when there is none. */
    function GetOr(default: T): T {
      match this
      case Some(v) => v
      case None => default
    }
  }
}
